=== FILE: README.md ===
# Bootcamp and course request handlers, modelled in Dafny

This project models the request handlers of a REST service for coding
bootcamps and their courses: the bootcamp controller (list, get, create,
update, delete, photo upload) and the course controller (list, get, add,
update, delete). Each handler looks the resource up, applies the ownership
guard, validates, mutates, and stops at the first failure. Here each handler
is a pure function from the caller, the path parameters, the body and the
store to a `Reply`: an `Outcome` and the store afterwards.

- The store (`Model.Store`) holds one map from id to `Bootcamp` and one from
  id to `Course`. A record's id is its map key.
- An `Outcome` is one of three things. `Ok(status, payload)` is a success
  response. `Err(code, reason)` is an `ErrorResponse` handed to `next`;
  `code` is `None` where the source builds it without a status. `Fault(cause,
  forwarded)` means the handler throws; `forwarded` says whether
  `asyncHandler` passes the error on to the error middleware.
- The ownership guard `Model.MayMutate(caller, owner)` holds when the owner is
  the caller or the caller's role is "admin".
- The handlers as written are in `Bootcamps` and `Courses`. Their defects are
  modelled faithfully. Several refusals read `req.parms.id`, and `req.parms`
  is undefined. The course update and delete guards read an undeclared
  `bootcamp`. The course not-found refusals put the 404 outside the
  `ErrorResponse`.
- `Repaired` holds the handlers as evidently intended. It includes the rule
  that a course is updated or deleted under its parent bootcamp owner's
  guard.
- `Properties` relates several requests: reads after writes, the
  one-bootcamp-per-publisher rule, the guard in front of every change, the
  upload check order, and parent references.
- `Findings` states, for concrete requests, where the two versions differ.

Some behaviour of the code is worth stating up front, because it is not
what the handlers evidently aim at:

- A refused bootcamp update or delete throws on `req.parms` instead of
  answering 401. A delete of a missing bootcamp throws the same way instead
  of answering 404.
- The course update and delete guards read an undeclared `bootcamp`, so
  every request on an existing course throws. No owner check ever runs.
- The course not-found refusals pass 404 to `next` as a second argument, so
  the error carries no status.
- A bootcamp update writes every field of the body, `photo` included. The
  photo upload is not the only way to change a bootcamp's photo.
- The same update may set `user`, so an owner can hand a bootcamp to a user
  who already owns one. The one-bootcamp-per-publisher rule holds only at
  creation.
- A course update writes `bootcamp` from the body too. Under the
  parent-owner rule an allowed update can move a course under an id no
  bootcamp has.
- Deleting a bootcamp does not remove its courses in these handlers. A
  cascade would live in the Bootcamp model's remove hook, which is not part
  of this model.

## Model

| member | source | states |
|---|---|---|
| Model.PatchBootcamp | controllers/bootcamps.js:81-84 | an update writes every field the body supplies over the record (owner and photo included) and keeps every other field |
| Model.PatchCourse | controllers/courses.js:89-92 | the same partial overwrite for a course, parent and owner included |
| Bootcamps.GetBootcamps | controllers/bootcamps.js:10-12 | the list handler answers 200 with the precomputed page verbatim and leaves the store alone |
| Bootcamps.GetBootcamp | controllers/bootcamps.js:17-27 | success exactly when the id is stored, carrying exactly the stored record; otherwise 404 naming the id; the store never changes |
| Bootcamps.CreateBootcamp | controllers/bootcamps.js:32-55 | a non-admin who already owns a bootcamp gets 400 and nothing changes; an admin is never refused; success iff that rule passes and the id is fresh, then status 201, exactly one record added (size grows by one), owned by the caller whatever the body's `user`, every other record intact |
| Bootcamps.UpdateBootcamp | controllers/bootcamps.js:66-86 | success iff the bootcamp exists and the guard allows; every other request faults on `req.parms` with the store unchanged; an allowed update changes only the target, to the body-patched record |
| Bootcamps.DeleteBootcamp | controllers/bootcamps.js:93-108 | success iff the bootcamp exists and the guard allows, then exactly the target id is removed and every other record kept; a missing id faults (no `return`, `req.parms`) with the store unchanged |
| Bootcamps.CheckFile | controllers/bootcamps.js:145-164 | the file is accepted iff a single file was sent, its mimetype starts with "image" and its size is not above the limit (equal is accepted; an unset limit never refuses); no file gives 400 "upload a file", an absent or array `req.files.file` a fault, a wrong mimetype 400 before any size check, an oversized image 400 naming the limit |
| Bootcamps.StorePhoto | controllers/bootcamps.js:166-180 | the move target is `<upload path>/photo_<id><ext>`; a failed move answers 500 with the store unchanged; a successful one sets exactly the bootcamp's photo to that name and answers it |
| Bootcamps.PhotoUpload | controllers/bootcamps.js:131-181 | 404 for a missing bootcamp, a fault for a refused caller, then the file checks; a rejected file ends the request with exactly the check's outcome; an accepted file whose move fails gets 500 with the store unchanged; success iff all pass and the move succeeds; every failure leaves the store (so the photo) unchanged; on success the record's photo and the response both equal the derived name |
| Paths.TrimTrailingSlashes | controllers/bootcamps.js:166 | the name with its trailing '/' removed, as `path.parse` ignores them: a prefix of the name, not ending in '/', and followed only by '/' |
| Paths.LastIndexOf | controllers/bootcamps.js:166 | the position found holds the character and none follows it; none is found iff the character does not occur |
| Paths.Basename | controllers/bootcamps.js:166 | the base name has no '/', is a suffix of the name without trailing slashes, and is preceded by a '/' unless it is all of it |
| Paths.BaseExt | controllers/bootcamps.js:166 | the extension is empty or one leading '.' followed by no other '.', is a suffix of the base name, and is empty iff the base name is ".." or has no '.' after its first character |
| Paths.Ext | controllers/bootcamps.js:166 | `path.parse(name).ext` contains no '/', is a suffix of the base name, and is empty or starts with its only '.' |
| Paths.ExtEmpty | controllers/bootcamps.js:166 | a name has no extension iff its base name has no '.' after its first character, or is ".." other than directly under the root |
| Paths.RootDotDot | controllers/bootcamps.js:166 | "/.." and "/../" have extension ".", as Node's parse gives for a ".." directly under the root |
| Paths.RelativeDotDot | controllers/bootcamps.js:166 | ".." and "a/.." have no extension |
| Paths.BasenameOfSlashFree | controllers/bootcamps.js:166 | a name without '/' is its own base name |
| Paths.BaseExtOfPlainName | controllers/bootcamps.js:166 | a base name `stem.x` with no '.' in `x` (and other than "..") has extension `.x` |
| Paths.ExtOfPlainName | controllers/bootcamps.js:166 | a plain file name `stem.x` has extension `.x`, so the stored photo keeps the extension the client sent |
| Paths.PhotoNamesDistinct | controllers/bootcamps.js:166-168 | two different bootcamps never store uploads with the same extension under the same name, so neither overwrites the other's file; with different extensions ids containing '.' can collide ("a.b" with no extension and "a" with ".b") |
| Paths.PhotoNamesDistinctForPlainIds | controllers/bootcamps.js:166-168 | two different bootcamp ids without '.', as database ids are, never share a stored photo name whatever the extensions |
| Paths.PlainIdEnds | controllers/bootcamps.js:166 | in a stored name the id is followed by '.' or nothing, so an id cannot share its name with a longer '.'-free id |
| Courses.IdsOfAppend | controllers/courses.js:9 | appending a course to a list adds exactly its id to the list's ids |
| Courses.DistinctIdsCount | controllers/courses.js:13 | a list without repeated ids has as many ids as entries |
| Courses.CollectCourses | controllers/courses.js:9 | the collected list holds each course of the bootcamp once, as stored, and no other course |
| Courses.GetCourses | controllers/courses.js:7-19 | with a bootcamp id: 200, data is exactly that bootcamp's courses, each once, and count equals the data length and the number of such courses; without one: the precomputed page verbatim; read-only |
| Courses.GetCourse | controllers/courses.js:24-37 | success iff the course is stored, carrying that record; a missing id faults on `req.parms`; read-only |
| Courses.AddCourse | controllers/courses.js:39-66 | a missing parent is refused with no status and nothing created; the guard uses the parent's owner, and a refusal faults with nothing created; an id the store already holds faults; otherwise status 200 and exactly one course added, under the path's bootcamp and owned by the caller whatever the body says |
| Courses.UpdateCourse | controllers/courses.js:71-98 | never succeeds and never changes the store: a missing course is refused with no status, an existing one faults on the unbound `bootcamp` |
| Courses.DeleteCourse | controllers/courses.js:103-127 | never succeeds and never changes the store: a missing course is refused with no status, an existing one faults on the unbound `bootcamp` |
| Repaired.UpdateBootcamp | controllers/bootcamps.js:66-86 | never faults: 404 for a missing id, 401 for a refused caller, both leaving the store unchanged; success iff found and allowed, changing only the target |
| Repaired.DeleteBootcamp | controllers/bootcamps.js:93-108 | never faults: 404 for a missing id, 401 for a refused caller; success iff found and allowed, removing exactly the target |
| Repaired.PhotoUpload | controllers/bootcamps.js:139-143 | a refused caller gets 401 before any file check; success requires found, allowed and accepted, and sets exactly the photo |
| Repaired.GetCourse | controllers/courses.js:24-37 | never faults: 404 for a missing course, the record otherwise |
| Repaired.AddCourse | controllers/courses.js:39-66 | 404 for a missing parent, 401 for a caller the parent's owner guard refuses; success iff the parent exists, the guard allows and the id is fresh, then 200 with exactly one course added under the path's bootcamp owned by the caller |
| Repaired.UpdateCourse | controllers/courses.js:71-98 | under the parent-owner rule: success iff the course and its parent exist and the guard allows the parent's owner, changing only that course to its patched record; a missing course or a missing parent gets 404, a refused caller 401, and refusals change nothing |
| Repaired.DeleteCourse | controllers/courses.js:103-127 | under the parent-owner rule: success iff the course and its parent exist and the guard allows the parent's owner, removing exactly that course; a missing course or a missing parent gets 404, a refused caller 401, and refusals change nothing |
| Properties.CreateThenGet | controllers/bootcamps.js:34-54 | after a successful create, reading the new id returns the created record, owned by the creator |
| Properties.UpdateThenGet | controllers/bootcamps.js:81-85 | after an allowed update, reading the id returns the patched record and every other id reads as before |
| Properties.DeleteThenGet | controllers/bootcamps.js:106-107 | after an allowed delete, reading the id answers 404 |
| Properties.PhotoThenGet | controllers/bootcamps.js:174-179 | after a successful upload, reading the bootcamp shows the reported name as its photo, owner and fields unchanged |
| Properties.GetIsIdempotent | controllers/bootcamps.js:17-27 | reading a bootcamp twice with nothing in between answers the same |
| Properties.AddCourseThenRead | controllers/courses.js:40-64 | after a successful add, reading the course returns it with the path's bootcamp and the caller as owner, and it joins exactly that bootcamp's course list |
| Properties.CreateKeepsOnePerOwner | controllers/bootcamps.js:37-48 | a non-admin's create keeps every user at most one bootcamp, and a successful one leaves the caller owning exactly the new bootcamp |
| Properties.UpdateCanBreakOnePerOwner | controllers/bootcamps.js:81 | an owner's update whose body sets `user` to a user who already owns a bootcamp succeeds and leaves that user owning two |
| Properties.OwnedByInsert | controllers/bootcamps.js:50 | storing a new bootcamp adds its id to its owner's bootcamps and nobody else's |
| Properties.OnlyAllowedCallersChangeTheStore | controllers/bootcamps.js:73-81 | for update, delete, photo upload and add course, a changed store implies the guard allowed the caller for the bootcamp concerned; course update and delete as written never change it; the repaired ones change it only for the parent's owner or an admin |
| Properties.PhotoCheckOrder | controllers/bootcamps.js:139-164 | a refused caller faults before the missing-file check; a wrong mimetype is reported before an oversized file; a size equal to the limit, or any size under an unset limit, passes to the move; a size above it is refused with the limit |
| Properties.AddCourseKeepsParents | controllers/courses.js:43-60 | if every course's parent exists before an add, it does after |
| Properties.UpdateCourseCanOrphan | controllers/courses.js:89 | an allowed course update whose body sets `bootcamp` to an unknown id succeeds and leaves the course without a parent |
| Properties.DeleteBootcampOrphans | controllers/bootcamps.js:106 | an allowed delete keeps every course's parent present exactly when the bootcamp had no courses |
| Properties.RepairKeepsAnswers | controllers/bootcamps.js:66-181 | wherever bootcamp update, delete and photo upload as written do not fault, the repaired handler gives the same reply; the same for the course read and add (controllers/courses.js:24-66), read where it does not fault and add where it succeeds |
| Findings.UpdateByStranger | controllers/bootcamps.js:73-80 | a stranger's bootcamp update faults as written and is refused with 401 when repaired |
| Findings.UpdateOfMissing | controllers/bootcamps.js:68-72 | an update of a missing bootcamp faults as written and answers 404 when repaired |
| Findings.DeleteOfMissing | controllers/bootcamps.js:95-97 | a delete of a missing bootcamp faults as written and answers 404 when repaired |
| Findings.DeleteByStranger | controllers/bootcamps.js:98-105 | a stranger's bootcamp delete faults as written and is refused with 401 when repaired |
| Findings.PhotoByStranger | controllers/bootcamps.js:139-143 | a stranger's photo upload faults as written and is refused with 401 when repaired |
| Findings.GetOfMissingCourse | controllers/courses.js:26-31 | a read of a missing course faults as written and answers 404 when repaired |
| Findings.AddToMissingBootcamp | controllers/courses.js:45-50 | adding to a missing bootcamp is refused without a status as written and with 404 when repaired |
| Findings.AddByStranger | controllers/courses.js:52-59 | a stranger adding a course faults as written and is refused with 401 when repaired |
| Findings.UpdateCourseByParentOwner | controllers/courses.js:80-87 | the parent bootcamp's owner faults updating a course as written; when repaired the owner succeeds and the course's own non-owning owner gets 401 |
| Findings.DeleteCourseByParentOwner | controllers/courses.js:112-119 | the same for deleting a course |
| Findings.UpdateOfMissingCourse | controllers/courses.js:74-79 | updating a missing course is refused without a status as written and with 404 when repaired |

## Left out

- The radius search (`getBootcampsInRadius`) is left out. It depends on an external geocoder, floating-point division by 3963 and a spherical-cap database query.
- The server set-up is left out: middleware wiring, environment loading, database connection, rate limiting, listening and process signals. It holds no request logic.
- Mongoose schema behaviour is left out: `runValidators`, required fields, schema defaults such as the photo placeholder, and cast errors on malformed ids. Ids are plain strings, and `bootcamp.user.toString()` is compared as string equality.
- The cascade that removes a bootcamp's courses lives in the Bootcamp model's remove hook, which is not part of this model. `bootcamp.remove()` and `course.remove()` are modelled as completed removals. The un-awaited `bootcamp.remove()` can fail without anyone seeing it, and that failure is not modelled.
- `res.advancedResults` is opaque (`ListResult`). The list middleware that computes it is not part of this model.
- The file move is a parameter `moved`: the file system's success or failure for a given destination. Its error logging is left out. So is a failure of the record update inside the move callback.
- The error middleware is left out, so it is open what status a `Fault` or an `Err` without a code finally gets. Message strings are kept as the `Reason` they interpolate. The JSON envelope's shape is left out.
- Concurrency between requests is left out. That includes a bootcamp deleted between the photo move and the photo update.
- `ErrorResponse` is called without `new` at controllers/bootcamps.js:70, 75, 100, 141 and controllers/courses.js:54, 82, 114. That would also throw if `ErrorResponse` is a class, and utils/errorResponse.js is not part of this model. At each of those sites the `req.parms` read throws first anyway.
- `Bootcamps.CheckFile`: `MAX_FILE_UPLOAD` is read as a number or "not a number" (`None`). The empty string, which JavaScript converts to 0, and fractional limits are not told apart.
- `Paths.Ext`: models Node's POSIX `path` only. A Windows build would also split on '\\'.
- `Courses.GetCourses`: the order of the listed courses is left open. It states which courses appear and that each appears once, not their order.

## Findings

| source | as written | input that shows it | evidently intended | confidence | as-written member | corrected member |
|---|---|---|---|---|---|---|
| controllers/bootcamps.js:73-80 | a refused update builds its message from `req.parms.id`, which throws; the handler is not under `asyncHandler`, so the rejection goes unhandled | user "u2" (role "user") updates bootcamp "b1" owned by "u1" | refuse with 401 | high, not executed | Bootcamps.UpdateBootcamp, shown by Findings.UpdateByStranger | Repaired.UpdateBootcamp |
| controllers/bootcamps.js:68-72 | the not-found message reads `req.parms.id` and throws | update of a bootcamp id that is not stored | answer 404 | high, not executed | Bootcamps.UpdateBootcamp, shown by Findings.UpdateOfMissing | Repaired.UpdateBootcamp |
| controllers/bootcamps.js:95-97 | the not-found error is built but not returned, and building it reads `req.parms.id` and throws; without that, line 98 would dereference the missing bootcamp | delete of a bootcamp id that is not stored | answer 404 and stop | high, not executed | Bootcamps.DeleteBootcamp, shown by Findings.DeleteOfMissing | Repaired.DeleteBootcamp |
| controllers/bootcamps.js:98-105 | a refused delete reads `req.parms.id` and throws | user "u2" deletes bootcamp "b1" owned by "u1" | refuse with 401 | high, not executed | Bootcamps.DeleteBootcamp, shown by Findings.DeleteByStranger | Repaired.DeleteBootcamp |
| controllers/bootcamps.js:139-143 | a refused photo upload reads `req.parms.id` and throws | user "u2" uploads a photo for bootcamp "b1" owned by "u1" | refuse with 401 | high, not executed | Bootcamps.PhotoUpload, shown by Findings.PhotoByStranger | Repaired.PhotoUpload |
| controllers/courses.js:26-31 | the not-found message reads `req.parms.id` and throws | read of a course id that is not stored | answer 404 | high, not executed | Courses.GetCourse, shown by Findings.GetOfMissingCourse | Repaired.GetCourse |
| controllers/courses.js:45-50 | the 404 is passed to `next` as a second argument, and the `ErrorResponse` gets no status | add a course to bootcamp "b2", which is not stored | answer 404 | high, not executed | Courses.AddCourse, shown by Findings.AddToMissingBootcamp | Repaired.AddCourse |
| controllers/courses.js:52-59 | a refused add reads `req.parms.id` and throws | user "u2" adds a course to bootcamp "b1" owned by "u1" | refuse with 401 | high, not executed | Courses.AddCourse, shown by Findings.AddByStranger | Repaired.AddCourse |
| controllers/courses.js:80-87 | the guard reads `bootcamp`, which the handler never declares, so every update of an existing course throws | user "u1" updates course "c1" of their own bootcamp "b1" | guard on the parent bootcamp's owner, then update | high, not executed | Courses.UpdateCourse, shown by Findings.UpdateCourseByParentOwner | Repaired.UpdateCourse |
| controllers/courses.js:112-119 | the same unbound `bootcamp` in the delete guard | user "u1" deletes course "c1" of their own bootcamp "b1" | guard on the parent bootcamp's owner, then delete | high, not executed | Courses.DeleteCourse, shown by Findings.DeleteCourseByParentOwner | Repaired.DeleteCourse |
| controllers/courses.js:74-79 | the 404 is passed to `next` as a second argument, and the `ErrorResponse` gets no status (the same at lines 106-111) | update of a course id that is not stored | answer 404 | high, not executed | Courses.UpdateCourse, shown by Findings.UpdateOfMissingCourse | Repaired.UpdateCourse |

=== FILE: bootcamps.dfy ===
/** The bootcamp handlers of controllers/bootcamps.js, as written.

    Each handler is a pure function from the request's parts and the store to
    a `Reply`: the outcome and the store afterwards. The handler looks the
    bootcamp up, applies the ownership guard, validates, mutates, and stops at
    the first failure. Where the code evaluates `req.parms.id` (`req.parms` is
    undefined) the outcome is a `Fault`. `createBootcamp`, `updateBootcamp` and
    `deleteBootcamp` are not wrapped in `asyncHandler`, so what they throw is
    not forwarded to the error middleware. */
module Bootcamps {
  import opened Wrappers
  import opened Model
  import Paths

  /** A file as the upload middleware describes it. */
  datatype UploadedFile = UploadedFile(name: string, mimetype: string, size: nat)

  /** `req.files.file`: absent, one file, or an array when several files were
      sent under the field name "file". */
  datatype FileField = Missing | Single(file: UploadedFile) | Several(files: seq<UploadedFile>)

  /** `req.files`: `NoFiles` when the request carries no file at all. */
  datatype Files = NoFiles | Files(file: FileField)

  /** The upload settings read from the environment. `maxFileUpload` is
      `MAX_FILE_UPLOAD` as the `>` comparison reads it: `None` when it is unset
      or not a number, which makes the comparison false. */
  datatype UploadConfig = UploadConfig(maxFileUpload: Option<int>, fileUploadPath: string)

  /** `file.mimetype.startsWith('image')`. */
  predicate IsImage(mimetype: string) {
    "image" <= mimetype
  }

  /** `file.size > process.env.MAX_FILE_UPLOAD`. */
  predicate Oversized(size: nat, limit: Option<int>) {
    limit.Some? && size > limit.value
  }

  /** The path `file.mv` is asked to write the photo to. */
  function Destination(cfg: UploadConfig, name: string): string {
    cfg.fileUploadPath + "/" + name
  }

  /** GET /bootcamps: the page the list middleware computed, passed on as is. */
  function GetBootcamps(advanced: ListResult, st: Store): (r: Reply)
    ensures r.store == st
    ensures r.outcome == Ok(200, Precomputed(advanced))
  {
    Reply(Ok(200, Precomputed(advanced)), st)
  }

  /** GET /bootcamps/:id */
  function GetBootcamp(id: Id, st: Store): (r: Reply)
    ensures r.store == st
    ensures r.outcome.Ok? <==> id in st.bootcamps
    ensures id in st.bootcamps ==> r.outcome == Ok(200, BootcampData(Entry(id, st.bootcamps[id])))
    ensures id !in st.bootcamps ==> r.outcome == Err(Some(404), BootcampNotFound(id))
  {
    if id !in st.bootcamps then Reply(Err(Some(404), BootcampNotFound(id)), st)
    else Reply(Ok(200, BootcampData(Entry(id, st.bootcamps[id]))), st)
  }

  /** POST /bootcamps. The store hands out `newId` for the new document; an
      id it already holds makes the insert throw. */
  function CreateBootcamp(caller: Caller, body: BootcampBody, newId: Id, st: Store): (r: Reply)
    // a non-admin who already owns a bootcamp is refused, and nothing changes
    ensures !IsAdmin(caller) && OwnedBy(st, caller.id) != {} ==>
              r == Reply(Err(Some(400), AlreadyPublished(caller.id)), st)
    // an admin is never refused
    ensures IsAdmin(caller) ==> !r.outcome.Err?
    ensures r.outcome.Ok? <==> (IsAdmin(caller) || OwnedBy(st, caller.id) == {}) && newId !in st.bootcamps
    ensures r.outcome.Fault? ==> r.outcome == Fault(DuplicateId, false)
    ensures !r.outcome.Ok? ==> r.store == st
    // on success exactly one bootcamp is added, owned by the caller whatever the body said
    ensures r.outcome.Ok? ==>
              && r.store.bootcamps.Keys == st.bootcamps.Keys + {newId}
              && |r.store.bootcamps| == |st.bootcamps| + 1
              && BootcampsAgreeExcept(st, r.store, newId)
              && r.store.bootcamps[newId].user == caller.id
              && r.store.bootcamps[newId].photo == body.photo
              && r.store.bootcamps[newId].fields == body.fields
              && r.outcome == Ok(201, BootcampData(Entry(newId, r.store.bootcamps[newId])))
  {
    if OwnedBy(st, caller.id) != {} && !IsAdmin(caller) then
      Reply(Err(Some(400), AlreadyPublished(caller.id)), st)
    else if newId in st.bootcamps then
      Reply(Fault(DuplicateId, false), st)
    else
      var b := NewBootcamp(caller, body);
      Reply(Ok(201, BootcampData(Entry(newId, b))), st.(bootcamps := st.bootcamps[newId := b]))
  }

  /** PUT /bootcamps/:id. Both refusals interpolate `req.parms.id` and throw. */
  function UpdateBootcamp(caller: Caller, id: Id, body: BootcampBody, st: Store): (r: Reply)
    ensures r.outcome.Ok? <==> id in st.bootcamps && MayMutate(caller, st.bootcamps[id].user)
    // every failure throws before the update, so the store is unchanged
    ensures !r.outcome.Ok? ==> r == Reply(Fault(ParmsUndefined, false), st)
    // an allowed update changes only the target, overwriting the body's fields
    ensures r.outcome.Ok? ==>
              && id in r.store.bootcamps
              && r.store.bootcamps[id] == PatchBootcamp(st.bootcamps[id], body)
              && BootcampsAgreeExcept(st, r.store, id)
              && r.store.bootcamps.Keys == st.bootcamps.Keys
              && r.outcome == Ok(200, BootcampData(Entry(id, r.store.bootcamps[id])))
  {
    if id !in st.bootcamps then Reply(Fault(ParmsUndefined, false), st)
    else if !MayMutate(caller, st.bootcamps[id].user) then Reply(Fault(ParmsUndefined, false), st)
    else
      var b := PatchBootcamp(st.bootcamps[id], body);
      Reply(Ok(200, BootcampData(Entry(id, b))), st.(bootcamps := st.bootcamps[id := b]))
  }

  /** DELETE /bootcamps/:id. On a missing id the `ErrorResponse` is built but
      not returned, and building it already throws on `req.parms.id`. */
  function DeleteBootcamp(caller: Caller, id: Id, st: Store): (r: Reply)
    ensures r.outcome.Ok? <==> id in st.bootcamps && MayMutate(caller, st.bootcamps[id].user)
    ensures !r.outcome.Ok? ==> r == Reply(Fault(ParmsUndefined, false), st)
    // an allowed delete removes exactly the target
    ensures r.outcome.Ok? ==>
              && r.store.bootcamps.Keys == st.bootcamps.Keys - {id}
              && |r.store.bootcamps| == |st.bootcamps| - 1
              && BootcampsAgreeExcept(st, r.store, id)
              && r.outcome == Ok(200, NoData)
  {
    if id !in st.bootcamps then Reply(Fault(ParmsUndefined, false), st)
    else if !MayMutate(caller, st.bootcamps[id].user) then Reply(Fault(ParmsUndefined, false), st)
    else Reply(Ok(200, NoData), st.(bootcamps := st.bootcamps - {id}))
  }

  /** The result of the upload's file checks: the file to store, or the
      outcome the request ends with. */
  datatype FileCheck = Accepted(file: UploadedFile) | Rejected(outcome: Outcome)

  /** The upload's file checks, in order: a file was sent, it is one file, its
      mimetype starts with "image", its size is not above the limit. */
  function CheckFile(files: Files, cfg: UploadConfig): (r: FileCheck)
    ensures r.Accepted? <==>
              && files.Files? && files.file.Single?
              && IsImage(files.file.file.mimetype)
              && !Oversized(files.file.file.size, cfg.maxFileUpload)
    ensures r.Accepted? ==> r.file == files.file.file
    ensures r.Rejected? ==> r.outcome.Err? || r.outcome == Fault(FileNotSingle, true)
    ensures r.Rejected? && r.outcome.Err? ==> r.outcome.code == Some(400)
    // no file at all is refused with 400
    ensures files.NoFiles? ==> r == Rejected(Err(Some(400), NoFile))
    // an absent or array `req.files.file` throws on `file.mimetype`
    ensures files.Files? && !files.file.Single? ==> r == Rejected(Fault(FileNotSingle, true))
    // the mimetype is checked before the size
    ensures files.Files? && files.file.Single? && !IsImage(files.file.file.mimetype) ==>
              r == Rejected(Err(Some(400), NotImage))
    ensures files.Files? && files.file.Single? && IsImage(files.file.file.mimetype)
              && Oversized(files.file.file.size, cfg.maxFileUpload) ==>
              r == Rejected(Err(Some(400), TooLarge(cfg.maxFileUpload.value)))
  {
    match files
    case NoFiles => Rejected(Err(Some(400), NoFile))
    case Files(Single(f)) =>
      if !IsImage(f.mimetype) then Rejected(Err(Some(400), NotImage))
      else if Oversized(f.size, cfg.maxFileUpload) then Rejected(Err(Some(400), TooLarge(cfg.maxFileUpload.value)))
      else Accepted(f)
    case Files(_) => Rejected(Fault(FileNotSingle, true))
  }

  /** The end of the upload once every check passed: the file is renamed to
      `photo_<id><ext>` and moved; `moved` is the file system's answer for a
      destination. Only a successful move records the name on the bootcamp. */
  function StorePhoto(id: Id, f: UploadedFile, cfg: UploadConfig, moved: string -> bool, st: Store): (r: Reply)
    requires id in st.bootcamps
    ensures r.outcome.Ok? <==> moved(Destination(cfg, Paths.PhotoName(id, f.name)))
    ensures !r.outcome.Ok? ==> r == Reply(Err(Some(500), UploadProblem), st)
    ensures r.outcome.Ok? ==>
              && r.outcome == Ok(200, FileName(Paths.PhotoName(id, f.name)))
              && id in r.store.bootcamps
              && r.store.bootcamps[id] == st.bootcamps[id].(photo := Some(Paths.PhotoName(id, f.name)))
              && BootcampsAgreeExcept(st, r.store, id)
  {
    var name := Paths.PhotoName(id, f.name);
    if !moved(Destination(cfg, name)) then Reply(Err(Some(500), UploadProblem), st)
    else Reply(Ok(200, FileName(name)), st.(bootcamps := st.bootcamps[id := st.bootcamps[id].(photo := Some(name))]))
  }

  /** PUT /bootcamps/:id/photo. A refused caller makes the handler throw on
      `req.parms.id`; the handler is wrapped in `asyncHandler`. */
  function PhotoUpload(caller: Caller, id: Id, files: Files, cfg: UploadConfig, moved: string -> bool, st: Store): (r: Reply)
    // every failure leaves the store, and so the photo, unchanged
    ensures !r.outcome.Ok? ==> r.store == st
    ensures id !in st.bootcamps ==> r.outcome == Err(Some(404), BootcampNotFound(id))
    ensures id in st.bootcamps && !MayMutate(caller, st.bootcamps[id].user) ==>
              r.outcome == Fault(ParmsUndefined, true)
    // an accepted file whose move fails is answered with 500
    ensures id in st.bootcamps && MayMutate(caller, st.bootcamps[id].user) && CheckFile(files, cfg).Accepted?
              && !moved(Destination(cfg, Paths.PhotoName(id, files.file.file.name))) ==>
              r == Reply(Err(Some(500), UploadProblem), st)
    // a rejected file ends the request with the check's outcome
    ensures id in st.bootcamps && MayMutate(caller, st.bootcamps[id].user) && CheckFile(files, cfg).Rejected? ==>
              r.outcome == CheckFile(files, cfg).outcome
    ensures r.outcome.Ok? <==>
              && id in st.bootcamps && MayMutate(caller, st.bootcamps[id].user)
              && CheckFile(files, cfg).Accepted?
              && moved(Destination(cfg, Paths.PhotoName(id, files.file.file.name)))
    // on success the photo and the response both carry the derived name
    ensures r.outcome.Ok? ==>
              var name := Paths.PhotoName(id, files.file.file.name);
              && r.outcome == Ok(200, FileName(name))
              && id in r.store.bootcamps
              && r.store.bootcamps[id] == st.bootcamps[id].(photo := Some(name))
              && BootcampsAgreeExcept(st, r.store, id)
  {
    if id !in st.bootcamps then Reply(Err(Some(404), BootcampNotFound(id)), st)
    else if !MayMutate(caller, st.bootcamps[id].user) then Reply(Fault(ParmsUndefined, true), st)
    else
      match CheckFile(files, cfg)
      case Rejected(o) => Reply(o, st)
      case Accepted(f) => StorePhoto(id, f, cfg, moved, st)
  }
}

=== FILE: courses.dfy ===
/** The course handlers of controllers/courses.js, as written.

    Every handler here is wrapped in `asyncHandler`, so what it throws is
    forwarded to the error middleware. Three defects shape the outcomes:
    `getCourse` and `addCourse` interpolate `req.parms.id` in their refusals;
    the not-found refusals pass 404 to `next` next to an `ErrorResponse` built
    without a status; and the guards of `updateCourse` and `deleteCourse` read
    `bootcamp`, which those handlers never declare. */
module Courses {
  import opened Wrappers
  import opened Model

  /** The ids of the courses a list response carries. */
  function IdsOf(data: seq<Entry<Course>>): set<Id> {
    set i | 0 <= i < |data| :: data[i].id
  }

  /** No course appears twice in `data`. */
  ghost predicate DistinctIds(data: seq<Entry<Course>>) {
    forall i, j :: 0 <= i < j < |data| ==> data[i].id != data[j].id
  }

  /** `data` lists, once each and as stored, exactly the courses of bootcamp `bid`. */
  ghost predicate ListsCoursesOf(data: seq<Entry<Course>>, st: Store, bid: Id) {
    && (forall i :: 0 <= i < |data| ==> data[i].id in st.courses && st.courses[data[i].id] == data[i].doc)
    && DistinctIds(data)
    && IdsOf(data) == CoursesOf(st, bid)
  }

  /** Appending an entry adds its id. */
  lemma IdsOfAppend(data: seq<Entry<Course>>, e: Entry<Course>)
    ensures IdsOf(data + [e]) == IdsOf(data) + {e.id}
  {
    var d' := data + [e];
    assert d'[|data|] == e;
    forall j | j in IdsOf(d') ensures j in IdsOf(data) + {e.id} {
      var i :| 0 <= i < |d'| && d'[i].id == j;
      if i < |data| { assert d'[i] == data[i]; }
    }
    forall j | j in IdsOf(data) ensures j in IdsOf(d') {
      var i :| 0 <= i < |data| && data[i].id == j;
      assert d'[i] == data[i];
    }
  }

  /** A list without repeated ids has as many ids as entries. */
  lemma {:induction false} DistinctIdsCount(data: seq<Entry<Course>>)
    requires DistinctIds(data)
    ensures |IdsOf(data)| == |data|
  {
    if |data| > 0 {
      var init := data[..|data| - 1];
      var last := data[|data| - 1];
      assert DistinctIds(init);
      DistinctIdsCount(init);
      assert data == init + [last];
      IdsOfAppend(init, last);
      assert last.id !in IdsOf(init) by {
        forall i | 0 <= i < |init| ensures init[i].id != last.id {
          assert init[i] == data[i];
        }
      }
    }
  }

  /** `req.params.bootcampId` is present and not the empty string. */
  predicate Truthy(bootcampId: Option<Id>) {
    bootcampId.Some? && bootcampId.value != ""
  }

  /** The courses of bootcamp `bid`, collected by visiting the stored
      courses one at a time in an order left open, as `Course.find` may. */
  method CollectCourses(st: Store, bid: Id) returns (data: seq<Entry<Course>>)
    ensures ListsCoursesOf(data, st, bid)
  {
    var rest := st.courses.Keys;
    data := [];
    while rest != {}
      invariant rest <= st.courses.Keys
      invariant forall i :: 0 <= i < |data| ==>
                  data[i].id in st.courses && st.courses[data[i].id] == data[i].doc && data[i].id !in rest
      invariant DistinctIds(data)
      invariant IdsOf(data) == CoursesOf(st, bid) - rest
      decreases rest
    {
      var k :| k in rest;
      var c := st.courses[k];
      if c.bootcamp == bid {
        IdsOfAppend(data, Entry(k, c));
        assert k in CoursesOf(st, bid);
        data := data + [Entry(k, c)];
      } else {
        assert k !in CoursesOf(st, bid);
      }
      rest := rest - {k};
    }
  }

  /** GET /courses and GET /bootcamps/:bootcampId/courses. With a bootcamp id
      the courses of that bootcamp are listed with their count; without one
      the list middleware's page is passed on as is. */
  method GetCourses(bootcampId: Option<Id>, advanced: ListResult, st: Store) returns (r: Reply)
    ensures r.store == st
    ensures !Truthy(bootcampId) ==> r.outcome == Ok(200, Precomputed(advanced))
    ensures Truthy(bootcampId) ==>
              && r.outcome.Ok? && r.outcome.status == 200 && r.outcome.payload.CourseList?
              && ListsCoursesOf(r.outcome.payload.courses, st, bootcampId.value)
              && r.outcome.payload.count == |r.outcome.payload.courses| == |CoursesOf(st, bootcampId.value)|
  {
    if !Truthy(bootcampId) {
      return Reply(Ok(200, Precomputed(advanced)), st);
    }
    var data := CollectCourses(st, bootcampId.value);
    DistinctIdsCount(data);
    return Reply(Ok(200, CourseList(|data|, data)), st);
  }

  /** GET /courses/:id. A missing id makes the handler throw on `req.parms.id`. */
  function GetCourse(id: Id, st: Store): (r: Reply)
    ensures r.store == st
    ensures r.outcome.Ok? <==> id in st.courses
    ensures id in st.courses ==>
              r.outcome == Ok(200, ShownCourse("show course " + id, Entry(id, st.courses[id])))
    ensures id !in st.courses ==> r.outcome == Fault(ParmsUndefined, true)
  {
    if id !in st.courses then Reply(Fault(ParmsUndefined, true), st)
    else Reply(Ok(200, ShownCourse("show course " + id, Entry(id, st.courses[id]))), st)
  }

  /** POST /bootcamps/:bootcampId/courses. The store hands out `newId` for
      the new course; an id it already holds makes the insert throw. */
  function AddCourse(caller: Caller, bootcampId: Id, body: CourseBody, newId: Id, st: Store): (r: Reply)
    ensures !r.outcome.Ok? ==> r.store == st
    // a missing parent is refused with an error that carries no status
    ensures bootcampId !in st.bootcamps ==> r.outcome == Err(None, NoBootcampWithId(bootcampId))
    // the guard is the parent bootcamp's owner; a refusal throws on `req.parms.id`
    ensures bootcampId in st.bootcamps && !MayMutate(caller, st.bootcamps[bootcampId].user) ==>
              r.outcome == Fault(ParmsUndefined, true)
    ensures r.outcome.Ok? <==>
              bootcampId in st.bootcamps && MayMutate(caller, st.bootcamps[bootcampId].user) && newId !in st.courses
    // an id the store already holds makes the insert throw
    ensures bootcampId in st.bootcamps && MayMutate(caller, st.bootcamps[bootcampId].user) && newId in st.courses ==>
              r.outcome == Fault(DuplicateId, true)
    // exactly one course is added, under the path's bootcamp and owned by the caller
    ensures r.outcome.Ok? ==>
              && r.store.courses.Keys == st.courses.Keys + {newId}
              && |r.store.courses| == |st.courses| + 1
              && CoursesAgreeExcept(st, r.store, newId)
              && r.store.courses[newId].bootcamp == bootcampId
              && r.store.courses[newId].user == caller.id
              && r.store.courses[newId].fields == body.fields
              && r.outcome == Ok(200, CourseData(Entry(newId, r.store.courses[newId])))
  {
    if bootcampId !in st.bootcamps then Reply(Err(None, NoBootcampWithId(bootcampId)), st)
    else if !MayMutate(caller, st.bootcamps[bootcampId].user) then Reply(Fault(ParmsUndefined, true), st)
    else if newId in st.courses then Reply(Fault(DuplicateId, true), st)
    else
      var c := NewCourse(caller, bootcampId, body);
      Reply(Ok(200, CourseData(Entry(newId, c))), st.(courses := st.courses[newId := c]))
  }

  /** PUT /courses/:id. The guard reads the undeclared `bootcamp`, so every
      existing course makes the handler throw before the update. */
  function UpdateCourse(caller: Caller, id: Id, body: CourseBody, st: Store): (r: Reply)
    ensures r.store == st
    ensures !r.outcome.Ok?
    ensures id !in st.courses ==> r.outcome == Err(None, NoCourseWithId(id))
    ensures id in st.courses ==> r.outcome == Fault(BootcampUnbound, true)
  {
    if id !in st.courses then Reply(Err(None, NoCourseWithId(id)), st)
    else Reply(Fault(BootcampUnbound, true), st)
  }

  /** DELETE /courses/:id. The guard reads the undeclared `bootcamp`, so every
      existing course makes the handler throw before the removal. */
  function DeleteCourse(caller: Caller, id: Id, st: Store): (r: Reply)
    ensures r.store == st
    ensures !r.outcome.Ok?
    ensures id !in st.courses ==> r.outcome == Err(None, NoCourseWithId(id))
    ensures id in st.courses ==> r.outcome == Fault(BootcampUnbound, true)
  {
    if id !in st.courses then Reply(Err(None, NoCourseWithId(id)), st)
    else Reply(Fault(BootcampUnbound, true), st)
  }
}

=== FILE: findings.dfy ===
/** Concrete requests on which the handlers as written and the repaired
    handlers part ways. The store holds one bootcamp "b1" owned by "u1" and
    one course "c1" under it owned by "u2"; neither user is an admin. */
module Findings {
  import opened Wrappers
  import opened Model
  import Bootcamps
  import Courses
  import Repaired

  const owner := Caller("u1", "user")
  const stranger := Caller("u2", "user")
  const noChange := BootcampBody(None, None, map[])
  const noCourseChange := CourseBody(None, None, map[])

  function Sample(): Store {
    Store(map["b1" := Bootcamp("u1", None, map[])], map["c1" := Course("b1", "u2", map[])])
  }

  /** A stranger's update of a bootcamp throws instead of being refused with 401. */
  lemma UpdateByStranger()
    ensures Bootcamps.UpdateBootcamp(stranger, "b1", noChange, Sample()).outcome == Fault(ParmsUndefined, false)
    ensures Repaired.UpdateBootcamp(stranger, "b1", noChange, Sample()).outcome
              == Err(Some(401), NotAuthorized("u2", "b1"))
  {
  }

  /** An update of a missing bootcamp throws instead of answering 404. */
  lemma UpdateOfMissing()
    ensures Bootcamps.UpdateBootcamp(owner, "b2", noChange, Sample()).outcome == Fault(ParmsUndefined, false)
    ensures Repaired.UpdateBootcamp(owner, "b2", noChange, Sample()).outcome == Err(Some(404), BootcampNotFound("b2"))
  {
  }

  /** A delete of a missing bootcamp throws instead of answering 404. */
  lemma DeleteOfMissing()
    ensures Bootcamps.DeleteBootcamp(owner, "b2", Sample()).outcome == Fault(ParmsUndefined, false)
    ensures Repaired.DeleteBootcamp(owner, "b2", Sample()).outcome == Err(Some(404), BootcampNotFound("b2"))
  {
  }

  /** A stranger's delete of a bootcamp throws instead of being refused with 401. */
  lemma DeleteByStranger()
    ensures Bootcamps.DeleteBootcamp(stranger, "b1", Sample()).outcome == Fault(ParmsUndefined, false)
    ensures Repaired.DeleteBootcamp(stranger, "b1", Sample()).outcome == Err(Some(401), NotAuthorized("u2", "b1"))
  {
  }

  /** A stranger's photo upload throws instead of being refused with 401. */
  lemma PhotoByStranger(cfg: Bootcamps.UploadConfig, moved: string -> bool)
    ensures Bootcamps.PhotoUpload(stranger, "b1", Bootcamps.NoFiles, cfg, moved, Sample()).outcome
              == Fault(ParmsUndefined, true)
    ensures Repaired.PhotoUpload(stranger, "b1", Bootcamps.NoFiles, cfg, moved, Sample()).outcome
              == Err(Some(401), NotAuthorized("u2", "b1"))
  {
  }

  /** A read of a missing course throws instead of answering 404. */
  lemma GetOfMissingCourse()
    ensures Courses.GetCourse("c2", Sample()).outcome == Fault(ParmsUndefined, true)
    ensures Repaired.GetCourse("c2", Sample()).outcome == Err(Some(404), CourseNotFound("c2"))
  {
  }

  /** Adding a course to a missing bootcamp is refused without a status. */
  lemma AddToMissingBootcamp()
    ensures Courses.AddCourse(owner, "b2", noCourseChange, "c2", Sample()).outcome == Err(None, NoBootcampWithId("b2"))
    ensures Repaired.AddCourse(owner, "b2", noCourseChange, "c2", Sample()).outcome
              == Err(Some(404), NoBootcampWithId("b2"))
  {
  }

  /** A stranger adding a course to someone else's bootcamp throws instead of
      being refused with 401. */
  lemma AddByStranger()
    ensures Courses.AddCourse(stranger, "b1", noCourseChange, "c2", Sample()).outcome == Fault(ParmsUndefined, true)
    ensures Repaired.AddCourse(stranger, "b1", noCourseChange, "c2", Sample()).outcome
              == Err(Some(401), NotAuthorized("u2", "b1"))
  {
  }

  /** The parent bootcamp's owner cannot update a course of that bootcamp:
      the guard throws on the undeclared `bootcamp`. Under the parent-owner
      rule the owner may, and the course's own owner, who does not own the
      bootcamp, is refused. */
  lemma UpdateCourseByParentOwner()
    ensures Courses.UpdateCourse(owner, "c1", noCourseChange, Sample()).outcome == Fault(BootcampUnbound, true)
    ensures Repaired.UpdateCourse(owner, "c1", noCourseChange, Sample()).outcome.Ok?
    ensures Repaired.UpdateCourse(stranger, "c1", noCourseChange, Sample()).outcome
              == Err(Some(401), NotAuthorized("u2", "c1"))
  {
  }

  /** The same for the delete of a course. */
  lemma DeleteCourseByParentOwner()
    ensures Courses.DeleteCourse(owner, "c1", Sample()).outcome == Fault(BootcampUnbound, true)
    ensures Repaired.DeleteCourse(owner, "c1", Sample()).outcome == Ok(200, NoData)
    ensures Repaired.DeleteCourse(stranger, "c1", Sample()).outcome == Err(Some(401), NotAuthorized("u2", "c1"))
  {
  }

  /** A missing course on update is refused without a status. */
  lemma UpdateOfMissingCourse()
    ensures Courses.UpdateCourse(owner, "c2", noCourseChange, Sample()).outcome == Err(None, NoCourseWithId("c2"))
    ensures Repaired.UpdateCourse(owner, "c2", noCourseChange, Sample()).outcome == Err(Some(404), NoCourseWithId("c2"))
  {
  }
}

=== FILE: model.dfy ===
/** The documents, request parts and responses the two controllers work on.

    The document database is an in-memory `Store`: one map from `_id` to
    Bootcamp and one from `_id` to Course. A record does not repeat its own
    id; the map key is the id, and a response that carries a document carries
    it as an `Entry` of id and record. */
module Model {
  import opened Wrappers

  /** A document id (`_id`) as the string Mongoose renders it. */
  type Id = string

  /** A user id (`req.user.id`, and the `user` field of a document). */
  type UserId = string

  /** The authenticated caller `req.user`, put on the request by the
      authentication middleware before any handler runs. */
  datatype Caller = Caller(id: UserId, role: string)

  predicate IsAdmin(caller: Caller) {
    caller.role == "admin"
  }

  /** The ownership guard written out at every mutation path:
      `bootcamp.user.toString() !== req.user.id && req.user.role !== 'admin'`
      denies, so the caller may go on when it owns the bootcamp or is an admin. */
  predicate MayMutate(caller: Caller, owner: UserId) {
    owner == caller.id || IsAdmin(caller)
  }

  /** The descriptive, non-load-bearing fields of a document (name,
      description, title, cost, ...), by field name. The keys "user", "photo"
      and "bootcamp" are never among them: a body's value for one of those is
      carried by the record's or body's own field, so a JSON body has one
      encoding. */
  type Fields = map<string, string>

  /** `updated` is `current` with every field of `patch` written over it and
      every other field kept: what an update with a partial body does. */
  ghost predicate Overwrites(current: Fields, patch: Fields, updated: Fields) {
    && updated.Keys == current.Keys + patch.Keys
    && (forall f :: f in patch ==> updated[f] == patch[f])
    && (forall f :: f in current && f !in patch ==> updated[f] == current[f])
  }

  /** A stored bootcamp: its owner (`user`), its photo file name (absent until
      one is set) and its descriptive fields. */
  datatype Bootcamp = Bootcamp(user: UserId, photo: Option<string>, fields: Fields)

  /** A stored course: its parent bootcamp, its owner and its descriptive fields. */
  datatype Course = Course(bootcamp: Id, user: UserId, fields: Fields)

  /** A JSON request body for a bootcamp: the fields it supplies. */
  datatype BootcampBody = BootcampBody(user: Option<UserId>, photo: Option<string>, fields: Fields)

  /** A JSON request body for a course: the fields it supplies. */
  datatype CourseBody = CourseBody(bootcamp: Option<Id>, user: Option<UserId>, fields: Fields)

  datatype Store = Store(bootcamps: map<Id, Bootcamp>, courses: map<Id, Course>)

  /** A document as a response carries it: its id and its record. */
  datatype Entry<T> = Entry(id: Id, doc: T)

  /** `res.advancedResults`: the page a list middleware computed before the
      handler ran. The handlers only pass it on, so its contents stay opaque. */
  datatype ListResult = ListResult(json: string)

  /** The `data` of a success response (and, for one course, its `message`). */
  datatype Payload =
    | BootcampData(bootcamp: Entry<Bootcamp>)
    | CourseData(course: Entry<Course>)
    | ShownCourse(message: string, course: Entry<Course>)
    | CourseList(count: nat, courses: seq<Entry<Course>>)
    | Precomputed(result: ListResult)
    | FileName(name: string)
    | NoData

  /** Which `ErrorResponse` a handler hands to `next`, with the values its
      message interpolates. */
  datatype Reason =
    | BootcampNotFound(id: Id)
    | AlreadyPublished(user: UserId)
    | NotAuthorized(user: UserId, id: Id)
    | NoFile
    | NotImage
    | TooLarge(limit: int)
    | UploadProblem
    | NoBootcampWithId(id: Id)
    | NoCourseWithId(id: Id)
    | CourseNotFound(id: Id)

  /** Why a handler throws instead of answering. */
  datatype Cause =
    | ParmsUndefined   // `req.parms.id`: `req.parms` is undefined
    | BootcampUnbound  // a guard reads `bootcamp`, which is not declared in the handler
    | FileNotSingle    // `req.files.file` is absent or an array, so `file.mimetype` is undefined
    | DuplicateId      // the store already holds a document under the new id

  /** What one request produces.
      - `Ok`: a success response with its status.
      - `Err`: an `ErrorResponse` passed to `next`; `code` is `None` where the
        handler builds it without a status code.
      - `Fault`: the handler throws. `forwarded` says whether the handler is
        wrapped in `asyncHandler`, so that the error reaches the error
        middleware; otherwise the promise rejection is not handled. */
  datatype Outcome =
    | Ok(status: nat, payload: Payload)
    | Err(code: Option<nat>, reason: Reason)
    | Fault(cause: Cause, forwarded: bool)

  /** A handler's outcome together with the store it leaves behind. */
  datatype Reply = Reply(outcome: Outcome, store: Store)

  /** `st'` differs from `st` at most in the bootcamp stored under `id`: every
      other bootcamp and every course is as it was. */
  ghost predicate BootcampsAgreeExcept(st: Store, st': Store, id: Id) {
    && st'.courses == st.courses
    && (forall k :: k != id ==> (k in st'.bootcamps <==> k in st.bootcamps))
    && (forall k :: k != id && k in st.bootcamps ==> st'.bootcamps[k] == st.bootcamps[k])
  }

  /** `st'` differs from `st` at most in the course stored under `id`: every
      other course and every bootcamp is as it was. */
  ghost predicate CoursesAgreeExcept(st: Store, st': Store, id: Id) {
    && st'.bootcamps == st.bootcamps
    && (forall k :: k != id ==> (k in st'.courses <==> k in st.courses))
    && (forall k :: k != id && k in st.courses ==> st'.courses[k] == st.courses[k])
  }

  /** The ids of the bootcamps `user` owns: what `Bootcamp.findOne({ user })` searches. */
  function OwnedBy(st: Store, user: UserId): set<Id> {
    set k | k in st.bootcamps && st.bootcamps[k].user == user
  }

  /** The ids of the courses whose parent is `bootcamp`: what
      `Course.find({ bootcamp })` selects. */
  function CoursesOf(st: Store, bootcamp: Id): set<Id> {
    set k | k in st.courses && st.courses[k].bootcamp == bootcamp
  }

  /** The bootcamp that `Bootcamp.create(req.body)` builds once the handler has
      set `req.body.user` to the caller: the owner is the caller whatever the
      body said. */
  function NewBootcamp(caller: Caller, body: BootcampBody): Bootcamp
  {
    Bootcamp(caller.id, body.photo, body.fields)
  }

  /** The course that `Course.create(req.body)` builds once the handler has set
      `req.body.bootcamp` to the path's bootcamp id and `req.body.user` to the
      caller: both override whatever the body said. */
  function NewCourse(caller: Caller, bootcampId: Id, body: CourseBody): Course
  {
    Course(bootcampId, caller.id, body.fields)
  }

  /** `findByIdAndUpdate(id, req.body)` on a bootcamp: every field the body
      supplies is written over the record, every other field is kept. */
  function PatchBootcamp(b: Bootcamp, body: BootcampBody): (b': Bootcamp)
    ensures body.user.Some? ==> b'.user == body.user.value
    ensures body.user.None? ==> b'.user == b.user
    ensures body.photo.Some? ==> b'.photo == body.photo
    ensures body.photo.None? ==> b'.photo == b.photo
    ensures Overwrites(b.fields, body.fields, b'.fields)
  {
    Bootcamp(body.user.GetOr(b.user), if body.photo.Some? then body.photo else b.photo, b.fields + body.fields)
  }

  /** `findByIdAndUpdate(id, req.body)` on a course: every field the body
      supplies is written over the record, every other field is kept. */
  function PatchCourse(c: Course, body: CourseBody): (c': Course)
    ensures body.bootcamp.Some? ==> c'.bootcamp == body.bootcamp.value
    ensures body.bootcamp.None? ==> c'.bootcamp == c.bootcamp
    ensures body.user.Some? ==> c'.user == body.user.value
    ensures body.user.None? ==> c'.user == c.user
    ensures Overwrites(c.fields, body.fields, c'.fields)
  {
    Course(body.bootcamp.GetOr(c.bootcamp), body.user.GetOr(c.user), c.fields + body.fields)
  }
}

=== FILE: paths.dfy ===
/** The file-name handling of the photo upload: the extension Node's POSIX
    `path.parse(name).ext` reports, and the name the upload is stored under. */
module Paths {
  import opened Wrappers

  /** `a` is a suffix of `s`. */
  predicate IsSuffix(a: string, s: string) {
    |a| <= |s| && s[|s| - |a|..] == a
  }

  /** The position of the last `c` in `s`, if `s` holds one. */
  function LastIndexOf(s: string, c: char): (r: Option<nat>)
    ensures r.None? <==> c !in s
    ensures r.Some? ==> r.value < |s| && s[r.value] == c && c !in s[r.value + 1..]
  {
    if |s| == 0 then None
    else if s[|s| - 1] == c then Some(|s| - 1)
    else
      var r := LastIndexOf(s[..|s| - 1], c);
      assert s == s[..|s| - 1] + [s[|s| - 1]];
      r
  }

  /** `s` without the '/' characters it ends with. */
  function TrimTrailingSlashes(s: string): (r: string)
    ensures r <= s
    ensures |r| == 0 || r[|r| - 1] != '/'
    ensures forall i :: |r| <= i < |s| ==> s[i] == '/'
  {
    if |s| > 0 && s[|s| - 1] == '/' then TrimTrailingSlashes(s[..|s| - 1]) else s
  }

  /** The base name `path.parse` takes the extension from: the last
      '/'-separated component, trailing slashes ignored. */
  function Basename(name: string): (b: string)
    ensures '/' !in b
    ensures IsSuffix(b, TrimTrailingSlashes(name))
    ensures var t := TrimTrailingSlashes(name);
      b == t || t[|t| - |b| - 1] == '/'
  {
    var t := TrimTrailingSlashes(name);
    match LastIndexOf(t, '/')
    case None => t
    case Some(i) => t[i + 1..]
  }

  /** The extension of a base name `b`: its suffix from its last '.', except
      that there is none when `b` has no '.', when its last '.' is its first
      character, and for the base name "..". */
  function BaseExt(b: string): (e: string)
    ensures e == "" || (e[0] == '.' && '.' !in e[1..])
    ensures IsSuffix(e, b)
    ensures e == "" <==> b == ".." || forall i :: 0 < i < |b| ==> b[i] != '.'
  {
    match LastIndexOf(b, '.')
    case None => ""
    case Some(i) =>
      if i == 0 || b == ".." then ""
      else
        assert b[i..][1..] == b[i + 1..];
        b[i..]
  }

  /** `path.parse(name).ext` on POSIX: the extension of the base name, with
      one exception. Node recognises the base name ".." only by its position
      relative to the preceding '/'; when that '/' is the root, as in "/..",
      the check misses and the extension is ".". */
  function Ext(name: string): (e: string)
    ensures '/' !in e
    ensures e == "" || (e[0] == '.' && '.' !in e[1..])
    ensures IsSuffix(e, Basename(name))
  {
    var b := Basename(name);
    if TrimTrailingSlashes(name) == "/.." then
      assert b == "..";
      "."
    else
      var e := BaseExt(b);
      assert e == b[|b| - |e|..];
      e
  }

  /** A name has no extension exactly when its base name has no '.' after its
      first character, or is ".." not directly under the root. */
  lemma ExtEmpty(name: string)
    ensures var b := Basename(name);
      Ext(name) == "" <==> (b == ".." && TrimTrailingSlashes(name) != "/..") || forall i :: 0 < i < |b| ==> b[i] != '.'
  {
  }

  /** The root's ".." has extension ".". */
  lemma RootDotDot()
    ensures Ext("/..") == "." && Ext("/../") == "."
  {
    assert TrimTrailingSlashes("/..") == "/..";
    assert "/../"[..3] == "/..";
    assert TrimTrailingSlashes("/../") == "/..";
  }

  /** A relative ".." has no extension. */
  lemma RelativeDotDot()
    ensures Ext("..") == "" && Ext("a/..") == ""
  {
    assert TrimTrailingSlashes("..") == "..";
    assert LastIndexOf("..", '/').None?;
    assert Basename("..") == "..";
    assert TrimTrailingSlashes("a/..") == "a/..";
    assert LastIndexOf("a/..", '/') == Some(1);
    assert Basename("a/..") == "..";
  }

  /** The stored name of an uploaded photo, `photo_<bootcamp id><extension>`. */
  function PhotoName(id: string, fileName: string): string {
    "photo_" + id + Ext(fileName)
  }

  /** A name without '/' is its own base name. */
  lemma BasenameOfSlashFree(s: string)
    requires '/' !in s
    ensures Basename(s) == s
  {
    assert |s| == 0 || s[|s| - 1] != '/';
    assert TrimTrailingSlashes(s) == s;
  }

  /** A base name `stem.x` with no '.' in `x` has extension `.x`. */
  lemma BaseExtOfPlainName(stem: string, x: string)
    requires |stem| > 0 && '.' !in x
    requires stem + "." + x != ".."
    ensures BaseExt(stem + "." + x) == "." + x
  {
    var s := stem + "." + x;
    var r := LastIndexOf(s, '.');
    assert s[|stem|] == '.';
    assert r.Some?;
    assert r.value == |stem|;
    assert s[|stem|..] == "." + x;
  }

  /** A plain file name `stem.x` keeps its extension `.x`: the name the upload
      is stored under ends in the extension the client sent. */
  lemma ExtOfPlainName(stem: string, x: string)
    requires |stem| > 0 && '/' !in stem && '/' !in x && '.' !in x
    requires stem + "." + x != ".."
    ensures Ext(stem + "." + x) == "." + x
  {
    var s := stem + "." + x;
    assert '/' !in s by {
      forall i | 0 <= i < |s| ensures s[i] != '/' {
        if i < |stem| { assert s[i] == stem[i]; }
        else if i > |stem| { assert s[i] == x[i - |stem| - 1]; }
      }
    }
    BasenameOfSlashFree(s);
    BaseExtOfPlainName(stem, x);
  }

  /** Two different bootcamps never store a photo under the same name when
      the uploads have the same extension, so neither overwrites the other. */
  lemma PhotoNamesDistinct(id1: string, id2: string, name1: string, name2: string)
    requires id1 != id2
    ensures Ext(name1) == Ext(name2) ==> PhotoName(id1, name1) != PhotoName(id2, name2)
  {
    var p1 := PhotoName(id1, name1);
    var p2 := PhotoName(id2, name2);
    assert p1[6..|p1| - |Ext(name1)|] == id1;
    assert p2[6..|p2| - |Ext(name2)|] == id2;
  }

  /** Bootcamp ids without '.' (as database ids are) never share a stored
      photo name, whatever the uploads' extensions: the id ends where the
      stored name's first '.' is, or at its end. */
  lemma PhotoNamesDistinctForPlainIds(id1: string, id2: string, name1: string, name2: string)
    requires id1 != id2
    requires '.' !in id1 && '.' !in id2
    ensures PhotoName(id1, name1) != PhotoName(id2, name2)
  {
    if |id1| < |id2| {
      PlainIdEnds(id1, id2, name1, name2);
    } else if |id2| < |id1| {
      PlainIdEnds(id2, id1, name2, name1);
    } else {
      var p1 := PhotoName(id1, name1);
      var p2 := PhotoName(id2, name2);
      assert p1[6..6 + |id1|] == id1;
      assert p2[6..6 + |id2|] == id2;
    }
  }

  /** A shorter '.'-free id is followed in its stored name by '.' or nothing,
      where a longer '.'-free id continues, so the two names differ. */
  lemma PlainIdEnds(short: string, long: string, name1: string, name2: string)
    requires |short| < |long|
    requires '.' !in long
    ensures PhotoName(short, name1) != PhotoName(long, name2)
  {
    var p1 := PhotoName(short, name1);
    var p2 := PhotoName(long, name2);
    var k := 6 + |short|;
    assert p2[k] == long[|short|];
    assert p2[k] != '.';
    if |p1| > k {
      assert p1[k] == Ext(name1)[0];
    }
  }
}

=== FILE: properties.dfy ===
/** Properties that relate several requests: what a later read sees after a
    mutation, the one-bootcamp-per-publisher rule, the guard standing in
    front of every change to the store, the order of the upload checks, and
    the parent references of courses. */
module Properties {
  import opened Wrappers
  import opened Model
  import Paths
  import Bootcamps
  import Courses
  import Repaired

  /** A created bootcamp is what a following read returns, owned by its creator. */
  lemma CreateThenGet(caller: Caller, body: BootcampBody, newId: Id, st: Store)
    requires Bootcamps.CreateBootcamp(caller, body, newId, st).outcome.Ok?
    ensures var st' := Bootcamps.CreateBootcamp(caller, body, newId, st).store;
      Bootcamps.GetBootcamp(newId, st').outcome
        == Ok(200, BootcampData(Entry(newId, Bootcamp(caller.id, body.photo, body.fields))))
  {
  }

  /** An allowed update is what a following read returns; every other
      bootcamp reads as before. */
  lemma UpdateThenGet(caller: Caller, id: Id, body: BootcampBody, st: Store, other: Id)
    requires id in st.bootcamps && MayMutate(caller, st.bootcamps[id].user)
    requires other != id
    ensures var st' := Bootcamps.UpdateBootcamp(caller, id, body, st).store;
      && Bootcamps.GetBootcamp(id, st').outcome
           == Ok(200, BootcampData(Entry(id, PatchBootcamp(st.bootcamps[id], body))))
      && Bootcamps.GetBootcamp(other, st') == Bootcamps.GetBootcamp(other, st).(store := st')
  {
  }

  /** After an allowed delete the bootcamp reads as not found. */
  lemma DeleteThenGet(caller: Caller, id: Id, st: Store)
    requires id in st.bootcamps && MayMutate(caller, st.bootcamps[id].user)
    ensures var st' := Bootcamps.DeleteBootcamp(caller, id, st).store;
      Bootcamps.GetBootcamp(id, st').outcome == Err(Some(404), BootcampNotFound(id))
  {
  }

  /** After a successful upload the bootcamp reads with the photo name the
      response reported. */
  lemma PhotoThenGet(caller: Caller, id: Id, files: Bootcamps.Files, cfg: Bootcamps.UploadConfig,
                     moved: string -> bool, st: Store)
    requires Bootcamps.PhotoUpload(caller, id, files, cfg, moved, st).outcome.Ok?
    ensures var r := Bootcamps.PhotoUpload(caller, id, files, cfg, moved, st);
      var g := Bootcamps.GetBootcamp(id, r.store).outcome;
      && g.Ok? && g.payload.BootcampData?
      && g.payload.bootcamp.doc.photo == Some(r.outcome.payload.name)
      && g.payload.bootcamp.doc.user == st.bootcamps[id].user
      && g.payload.bootcamp.doc.fields == st.bootcamps[id].fields
  {
  }

  /** Reading a bootcamp twice with nothing in between answers the same. */
  lemma GetIsIdempotent(id: Id, st: Store)
    ensures var r := Bootcamps.GetBootcamp(id, st);
      Bootcamps.GetBootcamp(id, r.store) == r
  {
  }

  /** An added course is what a following read returns, filed under the
      path's bootcamp and owned by the caller whatever the body said, and it
      joins that bootcamp's course list and no other. */
  lemma AddCourseThenRead(caller: Caller, bootcampId: Id, body: CourseBody, newId: Id, st: Store, bid: Id)
    requires Courses.AddCourse(caller, bootcampId, body, newId, st).outcome.Ok?
    ensures var st' := Courses.AddCourse(caller, bootcampId, body, newId, st).store;
      && Courses.GetCourse(newId, st').outcome
           == Ok(200, ShownCourse("show course " + newId, Entry(newId, Course(bootcampId, caller.id, body.fields))))
      && CoursesOf(st', bid) == if bid == bootcampId then CoursesOf(st, bid) + {newId} else CoursesOf(st, bid)
  {
    var st' := Courses.AddCourse(caller, bootcampId, body, newId, st).store;
    forall k | k in CoursesOf(st', bid) ensures k in CoursesOf(st, bid) || (k == newId && bid == bootcampId) {
      if k != newId { assert st'.courses[k] == st.courses[k]; }
    }
    forall k | k in CoursesOf(st, bid) ensures k in CoursesOf(st', bid) {
      assert k != newId;
      assert st'.courses[k] == st.courses[k];
    }
  }

  /** No user owns more than one bootcamp. */
  ghost predicate AtMostOne(st: Store, user: UserId) {
    |OwnedBy(st, user)| <= 1
  }

  /** A non-admin's create keeps every user at one bootcamp at most, and a
      successful one leaves the caller owning exactly the new bootcamp. */
  lemma CreateKeepsOnePerOwner(caller: Caller, body: BootcampBody, newId: Id, st: Store, user: UserId)
    requires !IsAdmin(caller)
    requires AtMostOne(st, user)
    ensures var r := Bootcamps.CreateBootcamp(caller, body, newId, st);
      && AtMostOne(r.store, user)
      && (r.outcome.Ok? ==> OwnedBy(r.store, caller.id) == {newId})
  {
    var r := Bootcamps.CreateBootcamp(caller, body, newId, st);
    if r.outcome.Ok? {
      OwnedByInsert(st, newId, r.store.bootcamps[newId], user);
      OwnedByInsert(st, newId, r.store.bootcamps[newId], caller.id);
    }
  }

  /** An update does not keep the one-bootcamp rule: its body may set `user`,
      so an owner can hand a bootcamp to a user who already owns one. */
  lemma UpdateCanBreakOnePerOwner()
    ensures var st := Store(map["b1" := Bootcamp("u1", None, map[]), "b2" := Bootcamp("u2", None, map[])], map[]);
      var r := Bootcamps.UpdateBootcamp(Caller("u1", "user"), "b1", BootcampBody(Some("u2"), None, map[]), st);
      && AtMostOne(st, "u2")
      && r.outcome.Ok?
      && !AtMostOne(r.store, "u2")
  {
    var st := Store(map["b1" := Bootcamp("u1", None, map[]), "b2" := Bootcamp("u2", None, map[])], map[]);
    var r := Bootcamps.UpdateBootcamp(Caller("u1", "user"), "b1", BootcampBody(Some("u2"), None, map[]), st);
    assert OwnedBy(st, "u2") == {"b2"};
    assert r.store.bootcamps["b1"].user == "u2";
    assert OwnedBy(r.store, "u2") == {"b1", "b2"};
  }

  /** Inserting a bootcamp under a fresh id adds that id to its owner's
      bootcamps and to nobody else's. */
  lemma OwnedByInsert(st: Store, newId: Id, b: Bootcamp, user: UserId)
    requires newId !in st.bootcamps
    ensures OwnedBy(st.(bootcamps := st.bootcamps[newId := b]), user)
              == OwnedBy(st, user) + (if b.user == user then {newId} else {})
  {
  }

  /** The guard stands in front of every change to the store: whichever of
      the mutating handlers ran, if the store changed then the caller owns
      the bootcamp concerned (for a course, its parent) or is an admin. */
  lemma OnlyAllowedCallersChangeTheStore(caller: Caller, id: Id, bbody: BootcampBody, cbody: CourseBody,
                                          files: Bootcamps.Files, cfg: Bootcamps.UploadConfig,
                                          moved: string -> bool, newId: Id, st: Store)
    ensures Bootcamps.UpdateBootcamp(caller, id, bbody, st).store != st ==>
              id in st.bootcamps && MayMutate(caller, st.bootcamps[id].user)
    ensures Bootcamps.DeleteBootcamp(caller, id, st).store != st ==>
              id in st.bootcamps && MayMutate(caller, st.bootcamps[id].user)
    ensures Bootcamps.PhotoUpload(caller, id, files, cfg, moved, st).store != st ==>
              id in st.bootcamps && MayMutate(caller, st.bootcamps[id].user)
    ensures Courses.AddCourse(caller, id, cbody, newId, st).store != st ==>
              id in st.bootcamps && MayMutate(caller, st.bootcamps[id].user)
    ensures Courses.UpdateCourse(caller, id, cbody, st).store == st
    ensures Courses.DeleteCourse(caller, id, st).store == st
    ensures Repaired.UpdateCourse(caller, id, cbody, st).store != st ==>
              id in st.courses && Repaired.ParentOwner(st, id).Some?
              && MayMutate(caller, Repaired.ParentOwner(st, id).value)
    ensures Repaired.DeleteCourse(caller, id, st).store != st ==>
              id in st.courses && Repaired.ParentOwner(st, id).Some?
              && MayMutate(caller, Repaired.ParentOwner(st, id).value)
  {
  }

  /** The upload checks run in the source's order: a refused caller is
      refused before any file check; a wrong mimetype is reported before an
      oversized file; a file exactly at the limit is accepted, and so is any
      size when the limit is not a number. */
  lemma PhotoCheckOrder(caller: Caller, id: Id, f: Bootcamps.UploadedFile, cfg: Bootcamps.UploadConfig,
                        moved: string -> bool, st: Store)
    requires id in st.bootcamps
    ensures !MayMutate(caller, st.bootcamps[id].user) ==>
              Bootcamps.PhotoUpload(caller, id, Bootcamps.NoFiles, cfg, moved, st).outcome == Fault(ParmsUndefined, true)
    ensures MayMutate(caller, st.bootcamps[id].user) && !Bootcamps.IsImage(f.mimetype) ==>
              Bootcamps.PhotoUpload(caller, id, Bootcamps.Files(Bootcamps.Single(f)), cfg, moved, st).outcome
                == Err(Some(400), NotImage)
    ensures MayMutate(caller, st.bootcamps[id].user) && Bootcamps.IsImage(f.mimetype)
              && (cfg.maxFileUpload == Some(f.size) || cfg.maxFileUpload.None?) ==>
              var r := Bootcamps.PhotoUpload(caller, id, Bootcamps.Files(Bootcamps.Single(f)), cfg, moved, st);
              r.outcome.Ok? || r.outcome == Err(Some(500), UploadProblem)
    ensures MayMutate(caller, st.bootcamps[id].user) && Bootcamps.IsImage(f.mimetype)
              && cfg.maxFileUpload.Some? && f.size > cfg.maxFileUpload.value ==>
              Bootcamps.PhotoUpload(caller, id, Bootcamps.Files(Bootcamps.Single(f)), cfg, moved, st).outcome
                == Err(Some(400), TooLarge(cfg.maxFileUpload.value))
  {
  }

  /** Every course's parent bootcamp is in the store. */
  ghost predicate ParentsExist(st: Store) {
    forall k :: k in st.courses ==> st.courses[k].bootcamp in st.bootcamps
  }

  /** Adding a course keeps every course's parent in the store, because the
      handler refuses a missing parent before it creates anything. */
  lemma AddCourseKeepsParents(caller: Caller, bootcampId: Id, body: CourseBody, newId: Id, st: Store)
    requires ParentsExist(st)
    ensures ParentsExist(Courses.AddCourse(caller, bootcampId, body, newId, st).store)
  {
  }

  /** An allowed course update does not keep parents in the store: its body
      may set `bootcamp` to an id no bootcamp has. */
  lemma UpdateCourseCanOrphan()
    ensures var st := Store(map["b1" := Bootcamp("u1", None, map[])], map["c1" := Course("b1", "u1", map[])]);
      var r := Repaired.UpdateCourse(Caller("u1", "user"), "c1", CourseBody(Some("zz"), None, map[]), st);
      && ParentsExist(st)
      && r.outcome.Ok?
      && !ParentsExist(r.store)
  {
    var st := Store(map["b1" := Bootcamp("u1", None, map[])], map["c1" := Course("b1", "u1", map[])]);
    var r := Repaired.UpdateCourse(Caller("u1", "user"), "c1", CourseBody(Some("zz"), None, map[]), st);
    assert r.store.courses["c1"].bootcamp == "zz";
  }

  /** The delete handler removes only the bootcamp: it keeps every course's
      parent in the store exactly when the bootcamp has no courses. */
  lemma DeleteBootcampOrphans(caller: Caller, id: Id, st: Store)
    requires ParentsExist(st)
    requires Bootcamps.DeleteBootcamp(caller, id, st).outcome.Ok?
    ensures ParentsExist(Bootcamps.DeleteBootcamp(caller, id, st).store) <==> CoursesOf(st, id) == {}
  {
    var st' := Bootcamps.DeleteBootcamp(caller, id, st).store;
    if CoursesOf(st, id) != {} {
      var k :| k in CoursesOf(st, id);
      assert st'.courses[k].bootcamp !in st'.bootcamps;
    } else {
      forall k | k in st'.courses ensures st'.courses[k].bootcamp in st'.bootcamps {
        assert k !in CoursesOf(st, id);
      }
    }
  }

  /** Where the bootcamp update, delete and photo upload and the course read
      as written answer without throwing, the repaired handlers answer the
      same; where adding a course as written succeeds, so does the repaired
      one, with the same reply. */
  lemma RepairKeepsAnswers(caller: Caller, id: Id, body: BootcampBody, files: Bootcamps.Files,
                           cfg: Bootcamps.UploadConfig, moved: string -> bool, st: Store,
                           cbody: CourseBody, newId: Id)
    ensures !Bootcamps.UpdateBootcamp(caller, id, body, st).outcome.Fault? ==>
              Repaired.UpdateBootcamp(caller, id, body, st) == Bootcamps.UpdateBootcamp(caller, id, body, st)
    ensures !Bootcamps.DeleteBootcamp(caller, id, st).outcome.Fault? ==>
              Repaired.DeleteBootcamp(caller, id, st) == Bootcamps.DeleteBootcamp(caller, id, st)
    ensures !Bootcamps.PhotoUpload(caller, id, files, cfg, moved, st).outcome.Fault? ==>
              Repaired.PhotoUpload(caller, id, files, cfg, moved, st)
                == Bootcamps.PhotoUpload(caller, id, files, cfg, moved, st)
    ensures !Courses.GetCourse(id, st).outcome.Fault? ==> Repaired.GetCourse(id, st) == Courses.GetCourse(id, st)
    ensures Courses.AddCourse(caller, id, cbody, newId, st).outcome.Ok? ==>
              Repaired.AddCourse(caller, id, cbody, newId, st) == Courses.AddCourse(caller, id, cbody, newId, st)
  {
  }
}

=== FILE: repaired.dfy ===
/** The handlers as their authors evidently meant them, for the ones the
    source gets wrong: every refusal carries its status (404 not found, 401
    not authorized) instead of throwing on `req.parms.id` or leaving the
    status out, a missing bootcamp on delete stops the handler, and a course
    is updated or deleted under the guard of its parent bootcamp's owner.
    Everything else is shared with the handlers as written. */
module Repaired {
  import opened Wrappers
  import opened Model
  import Paths
  import Bootcamps
  import Courses

  /** PUT /bootcamps/:id, refusals answered with 404 and 401. */
  function UpdateBootcamp(caller: Caller, id: Id, body: BootcampBody, st: Store): (r: Reply)
    ensures !r.outcome.Fault?
    ensures !r.outcome.Ok? ==> r.store == st
    ensures id !in st.bootcamps ==> r.outcome == Err(Some(404), BootcampNotFound(id))
    ensures id in st.bootcamps && !MayMutate(caller, st.bootcamps[id].user) ==>
              r.outcome == Err(Some(401), NotAuthorized(caller.id, id))
    ensures r.outcome.Ok? <==> id in st.bootcamps && MayMutate(caller, st.bootcamps[id].user)
    ensures r.outcome.Ok? ==>
              && id in r.store.bootcamps
              && r.store.bootcamps[id] == PatchBootcamp(st.bootcamps[id], body)
              && BootcampsAgreeExcept(st, r.store, id)
  {
    if id !in st.bootcamps then Reply(Err(Some(404), BootcampNotFound(id)), st)
    else if !MayMutate(caller, st.bootcamps[id].user) then Reply(Err(Some(401), NotAuthorized(caller.id, id)), st)
    else Bootcamps.UpdateBootcamp(caller, id, body, st)
  }

  /** DELETE /bootcamps/:id, a missing id answered with 404 and returned
      from, a refused caller with 401. */
  function DeleteBootcamp(caller: Caller, id: Id, st: Store): (r: Reply)
    ensures !r.outcome.Fault?
    ensures !r.outcome.Ok? ==> r.store == st
    ensures id !in st.bootcamps ==> r.outcome == Err(Some(404), BootcampNotFound(id))
    ensures id in st.bootcamps && !MayMutate(caller, st.bootcamps[id].user) ==>
              r.outcome == Err(Some(401), NotAuthorized(caller.id, id))
    ensures r.outcome.Ok? <==> id in st.bootcamps && MayMutate(caller, st.bootcamps[id].user)
    ensures r.outcome.Ok? ==>
              r.store.bootcamps.Keys == st.bootcamps.Keys - {id} && BootcampsAgreeExcept(st, r.store, id)
  {
    if id !in st.bootcamps then Reply(Err(Some(404), BootcampNotFound(id)), st)
    else if !MayMutate(caller, st.bootcamps[id].user) then Reply(Err(Some(401), NotAuthorized(caller.id, id)), st)
    else Bootcamps.DeleteBootcamp(caller, id, st)
  }

  /** PUT /bootcamps/:id/photo, a refused caller answered with 401. */
  function PhotoUpload(caller: Caller, id: Id, files: Bootcamps.Files, cfg: Bootcamps.UploadConfig,
                       moved: string -> bool, st: Store): (r: Reply)
    ensures !r.outcome.Ok? ==> r.store == st
    ensures id in st.bootcamps && !MayMutate(caller, st.bootcamps[id].user) ==>
              r.outcome == Err(Some(401), NotAuthorized(caller.id, id))
    ensures id !in st.bootcamps ==> r.outcome == Err(Some(404), BootcampNotFound(id))
    ensures r.outcome.Fault? ==> r.outcome == Fault(FileNotSingle, true)
    ensures r.outcome.Ok? ==>
              && id in st.bootcamps && MayMutate(caller, st.bootcamps[id].user)
              && Bootcamps.CheckFile(files, cfg).Accepted?
    ensures r.outcome.Ok? ==>
              var name := Paths.PhotoName(id, files.file.file.name);
              && r.outcome == Ok(200, FileName(name))
              && id in r.store.bootcamps
              && r.store.bootcamps[id] == st.bootcamps[id].(photo := Some(name))
              && BootcampsAgreeExcept(st, r.store, id)
  {
    if id in st.bootcamps && !MayMutate(caller, st.bootcamps[id].user) then
      Reply(Err(Some(401), NotAuthorized(caller.id, id)), st)
    else Bootcamps.PhotoUpload(caller, id, files, cfg, moved, st)
  }

  /** GET /courses/:id, a missing id answered with 404. */
  function GetCourse(id: Id, st: Store): (r: Reply)
    ensures r.store == st
    ensures !r.outcome.Fault?
    ensures id !in st.courses ==> r.outcome == Err(Some(404), CourseNotFound(id))
    ensures r.outcome.Ok? <==> id in st.courses
    ensures id in st.courses ==>
              r.outcome == Ok(200, ShownCourse("show course " + id, Entry(id, st.courses[id])))
  {
    if id !in st.courses then Reply(Err(Some(404), CourseNotFound(id)), st)
    else Reply(Ok(200, ShownCourse("show course " + id, Entry(id, st.courses[id]))), st)
  }

  /** POST /bootcamps/:bootcampId/courses, a missing parent answered with
      404, a refused caller with 401. */
  function AddCourse(caller: Caller, bootcampId: Id, body: CourseBody, newId: Id, st: Store): (r: Reply)
    ensures !r.outcome.Ok? ==> r.store == st
    ensures bootcampId !in st.bootcamps ==> r.outcome == Err(Some(404), NoBootcampWithId(bootcampId))
    ensures bootcampId in st.bootcamps && !MayMutate(caller, st.bootcamps[bootcampId].user) ==>
              r.outcome == Err(Some(401), NotAuthorized(caller.id, bootcampId))
    ensures r.outcome.Fault? ==> r.outcome == Fault(DuplicateId, true)
    ensures r.outcome.Ok? <==>
              bootcampId in st.bootcamps && MayMutate(caller, st.bootcamps[bootcampId].user) && newId !in st.courses
    ensures r.outcome.Ok? ==>
              && r.store.courses.Keys == st.courses.Keys + {newId}
              && r.outcome == Ok(200, CourseData(Entry(newId, r.store.courses[newId])))
              && CoursesAgreeExcept(st, r.store, newId)
              && r.store.courses[newId].bootcamp == bootcampId
              && r.store.courses[newId].user == caller.id
  {
    if bootcampId !in st.bootcamps then Reply(Err(Some(404), NoBootcampWithId(bootcampId)), st)
    else if !MayMutate(caller, st.bootcamps[bootcampId].user) then
      Reply(Err(Some(401), NotAuthorized(caller.id, bootcampId)), st)
    else Courses.AddCourse(caller, bootcampId, body, newId, st)
  }

  /** The owner whose guard decides a course mutation: the owner of the
      course's parent bootcamp, when that bootcamp exists. */
  function ParentOwner(st: Store, id: Id): Option<UserId>
    requires id in st.courses
  {
    var parent := st.courses[id].bootcamp;
    if parent in st.bootcamps then Some(st.bootcamps[parent].user) else None
  }

  /** PUT /courses/:id under the parent-owner rule: the course is looked up,
      then its parent bootcamp, and the parent's owner (or an admin) may
      update it. The course's own `user` field plays no part. */
  function UpdateCourse(caller: Caller, id: Id, body: CourseBody, st: Store): (r: Reply)
    ensures !r.outcome.Fault?
    ensures !r.outcome.Ok? ==> r.store == st
    ensures id !in st.courses ==> r.outcome == Err(Some(404), NoCourseWithId(id))
    // a course whose parent bootcamp is gone (a bootcamp delete leaves it behind)
    ensures id in st.courses && ParentOwner(st, id).None? ==>
              r.outcome == Err(Some(404), NoBootcampWithId(st.courses[id].bootcamp))
    ensures r.outcome.Ok? <==>
              id in st.courses && ParentOwner(st, id).Some? && MayMutate(caller, ParentOwner(st, id).value)
    ensures id in st.courses && ParentOwner(st, id).Some? && !MayMutate(caller, ParentOwner(st, id).value) ==>
              r.outcome == Err(Some(401), NotAuthorized(caller.id, id))
    ensures r.outcome.Ok? ==>
              && id in r.store.courses
              && r.store.courses[id] == PatchCourse(st.courses[id], body)
              && CoursesAgreeExcept(st, r.store, id)
              && r.outcome == Ok(200, CourseData(Entry(id, r.store.courses[id])))
  {
    if id !in st.courses then Reply(Err(Some(404), NoCourseWithId(id)), st)
    else
      var parent := st.courses[id].bootcamp;
      if parent !in st.bootcamps then Reply(Err(Some(404), NoBootcampWithId(parent)), st)
      else if !MayMutate(caller, st.bootcamps[parent].user) then Reply(Err(Some(401), NotAuthorized(caller.id, id)), st)
      else
        var c := PatchCourse(st.courses[id], body);
        Reply(Ok(200, CourseData(Entry(id, c))), st.(courses := st.courses[id := c]))
  }

  /** DELETE /courses/:id under the parent-owner rule. */
  function DeleteCourse(caller: Caller, id: Id, st: Store): (r: Reply)
    ensures !r.outcome.Fault?
    ensures !r.outcome.Ok? ==> r.store == st
    ensures id !in st.courses ==> r.outcome == Err(Some(404), NoCourseWithId(id))
    // a course whose parent bootcamp is gone (a bootcamp delete leaves it behind)
    ensures id in st.courses && ParentOwner(st, id).None? ==>
              r.outcome == Err(Some(404), NoBootcampWithId(st.courses[id].bootcamp))
    ensures r.outcome.Ok? <==>
              id in st.courses && ParentOwner(st, id).Some? && MayMutate(caller, ParentOwner(st, id).value)
    ensures id in st.courses && ParentOwner(st, id).Some? && !MayMutate(caller, ParentOwner(st, id).value) ==>
              r.outcome == Err(Some(401), NotAuthorized(caller.id, id))
    ensures r.outcome.Ok? ==>
              && r.store.courses.Keys == st.courses.Keys - {id}
              && CoursesAgreeExcept(st, r.store, id)
              && r.outcome == Ok(200, NoData)
  {
    if id !in st.courses then Reply(Err(Some(404), NoCourseWithId(id)), st)
    else
      var parent := st.courses[id].bootcamp;
      if parent !in st.bootcamps then Reply(Err(Some(404), NoBootcampWithId(parent)), st)
      else if !MayMutate(caller, st.bootcamps[parent].user) then Reply(Err(Some(401), NotAuthorized(caller.id, id)), st)
      else Reply(Ok(200, NoData), st.(courses := st.courses - {id}))
  }
}

=== FILE: wrappers.dfy ===
/** The conventional optional value, used for absent body fields, an unset
    upload limit and the missing status code of some error responses. */
module Wrappers {

  datatype Option<+T> = None | Some(value: T) {

    /** The wrapped value, or `default` when there is none. */
    function GetOr(default: T): T
    {
      match this
      case Some(v) => v
      case None => default
    }
  }
}
